=== FILE: README.md ===
# HL Sports order, payment and chat-search logic in Dafny

This project models the decision logic of the HL Sports shop server and proves
properties about it. Two parts of the server are covered:

- **The payment controller.**
  - `createOrder` validates a cart in a fixed order, computes the total on the
    server and stores a pending order.
  - `createPaymentIntent` checks three guards, then asks the payment processor
    (Stripe) for an intent priced from the stored order.
  - `confirmPayment` lets the order's owner mark it paid.
  - `handleStripeWebhook` applies signed processor events to the stored orders.
- **The chat product search.** It picks a search keyword from the last chat
  message and formats the list of products found for it.

Each handler is a pure function. The database is a value (`Orders.Db`): the
orders collection as a map from order id to order, plus each user's list of
order ids. Handlers that write return an `Outcome`: the new database and the
response (status code and JSON body). External services are function
parameters. The payment processor's intent creation is
`IntentRequest -> ProcessorReply`. Its webhook signature check is
`(body, signature) -> Verification`. The chat's product query is
`string -> Option<seq<Product>>`, where `None` is a query that throws. The model says which arguments each service is
called with and what the handler does with each possible answer.

Modules (one per file):

| module | file | contents |
|---|---|---|
| `JsValues` | js_values.dfy | optional values, JavaScript truthiness, `a \|\| b` |
| `Text` | text.dfy | `trim`, `toLowerCase`, `includes`, `split`/`join`, decimal rendering |
| `Seqs` | seqs.dfy | subsequences (what a `filter` returns) |
| `Orders` | orders.dfy | order, line, address, database, response records |
| `Checkout` | checkout.dfy | `createOrder` |
| `PaymentIntent` | payment_intent.dfy | `createPaymentIntent` |
| `ConfirmPayment` | confirm_payment.dfy | `confirmPayment` |
| `Webhook` | webhook.dfy | `handleStripeWebhook`, event sequences, agreement with `confirmPayment` |
| `Chat` | chat.dfy | the `/api/chat` handler |

The model follows the code as written, including these design choices:

- The processor intent id is never stored on the order.
- `paid` and `failed` are not absorbing. Webhook updates overwrite
  unconditionally, so a failure event after a success event leaves
  `paymentStatus = failed` with `status = confirmed`
  (`Webhook.FailureAfterSuccessOverwrites`).
- There is no conditional, per-order update guard.
- The amount is computed from the prices the client sends.
- `confirmPayment` trusts the caller. Its readable text never checks the
  intent with the processor. Lines 90-101 of controllers/paymentController.js
  are damaged, so the claim covers only the readable part.

## Model

| member | source | states |
|---|---|---|
| `Text.Trim` | controllers/paymentController.js:203 | `trim` leaves the piece of the value framed by white space only, and neither end of that piece is white space |
| `Text.TrimIsFramed` | controllers/paymentController.js:203 | trimming both ends leaves a piece of the value with only white space before it and after it |
| `Text.TrimEmptyIffBlank` | controllers/paymentController.js:203 | `value.trim() === ""` holds exactly when every character is ECMAScript white space or a line terminator |
| `Text.ToLower` | routes/chatRoutes.js:9 | lower-casing keeps the length, maps each character on its own, changes exactly the covered upper-case letters and leaves none of them; the per-script lemmas below say which letter each becomes |
| `Text.LowersToConcat` | routes/chatRoutes.js:9 | if every run of upper-case letters lower-cases letter by letter to its paired run, the joined tables pair up too |
| `Text.AsciiLowersTo` | routes/chatRoutes.js:9 | `A`–`Z` lower-case to `a`–`z`, letter for letter, so "NIKE" becomes "nike" |
| `Text.Latin1LowersTo` | routes/chatRoutes.js:9 | the Latin-1 capitals `À`–`Þ` (without `×`) lower-case to `à`–`þ`, letter for letter |
| `Text.ExtendedALowersTo` | routes/chatRoutes.js:9 | the Latin Extended-A capitals `Ā`–`Į` lower-case to their paired small letters `ā`–`į` |
| `Text.HornLowersTo` | routes/chatRoutes.js:9 | `Ơ` and `Ư` lower-case to `ơ` and `ư` |
| `Text.VietnameseAELowersTo` | routes/chatRoutes.js:9 | the Vietnamese capitals `Ạ`–`Ệ` (the A and E letters) lower-case to their paired small letters `ạ`–`ệ` |
| `Text.VietnameseIOUYLowersTo` | routes/chatRoutes.js:9 | the Vietnamese capitals `Ỉ`–`Ỹ` (the I, O, U and Y letters) lower-case to their paired small letters `ỉ`–`ỹ` |
| `Text.ToLowerIdempotent` | routes/chatRoutes.js:9 | lower-casing an already lower-cased message changes nothing |
| `Text.Contains` | routes/chatRoutes.js:19 | `includes` always finds the empty string and never finds a needle longer than the message |
| `Text.ContainsIffOccurs` | routes/chatRoutes.js:19 | `includes` is true exactly when the brand occurs at some position of the message |
| `Text.Split` | routes/chatRoutes.js:27 | `split(" ")` returns at least one segment, and no segment contains a space |
| `Text.Join` | routes/chatRoutes.js:43 | `join(sep)` is as long as its parts together plus one separator between each two |
| `Text.JoinEnds` | controllers/paymentController.js:209 | a joined list starts with its first part and ends with its last part |
| `Text.JoinSplit` | routes/chatRoutes.js:27 | joining the `split(" ")` segments with a space gives back the message, so no character is lost |
| `Text.SplitJoin` | routes/chatRoutes.js:41-43 | splitting a newline-joined list of newline-free lines gives back exactly those lines |
| `Text.LastSegment` | routes/chatRoutes.js:27-28 | the last segment of a split is the separator-free suffix after the last separator, or the whole string when there is none |
| `Text.NatToString` | routes/chatRoutes.js:42 | the rendered count is digits only, with no leading zero unless the count is 0 |
| `Text.NatToStringRoundTrip` | routes/chatRoutes.js:42 | the rendered product count reads back as the count |
| `Text.IntToString` | routes/chatRoutes.js:43 | `${price}` is a minus sign exactly for a negative price, then digits with no leading zero unless the price is 0 |
| `Text.IntToStringRoundTrip` | routes/chatRoutes.js:43 | a rendered integer price, sign included, reads back as the price |
| `Checkout.MissingFields` | controllers/paymentController.js:189-204 | the missing-field list keeps the declared field order and holds exactly the fields whose value is missing |
| `Checkout.MissingFieldsExact` | controllers/paymentController.js:189-204 | any list in declared order holding exactly the missing fields is the handler's list, so the list is unique |
| `Checkout.NoneMissingIffEmpty` | controllers/paymentController.js:206 | the list is empty exactly when none of the nine fields is missing |
| `Checkout.MissingIffBlank` | controllers/paymentController.js:200-204 | a field is missing exactly when its resolved value is absent or white space only (the empty string included) |
| `Checkout.OnlyZipcodeFallsBack` | controllers/paymentController.js:201-202 | every field other than `zipcode` is read from its own property only |
| `Checkout.ZipcodeFallback` | controllers/paymentController.js:201-203 | `zipCode` is consulted only when `zipcode` is falsy; a truthy `zipcode` decides alone |
| `Checkout.BlankZipcodeShadowsZipCode` | controllers/paymentController.js:201-203 | a `zipcode` of one space makes the field missing even though `zipCode` holds a value |
| `Checkout.ToLine` | controllers/paymentController.js:234-240 | a stored line's product id is `_id` when truthy, else `productId`, and is never empty; its name is `name` when truthy, else `title`; its image is the first of `images` when truthy, else `image`; price and quantity are kept |
| `Checkout.Accumulate` | controllers/paymentController.js:227-229 | the left-to-right `reduce` from a start value adds Σ price × quantity over the cart to it |
| `Checkout.LinesTotalOfItems` | controllers/paymentController.js:227-241 | the stored lines total what the submitted items total |
| `Checkout.StoredValue` | controllers/paymentController.js:242-253 | a field's own truthy property is stored as it is; otherwise the first or remaining words of `name` for the two name fields, `zipCode` for the zipcode, and `""` for the rest |
| `Checkout.BuildAddress` | controllers/paymentController.js:242-253 | each of the nine stored address fields is written from the payload with that field's fallbacks |
| `Checkout.StoredIsValidated` | controllers/paymentController.js:242-253 | a field that passed validation is stored as exactly the value validation accepted, which is not blank |
| `Checkout.BuildAddressKeepsValidated` | controllers/paymentController.js:242-253 | once validation has passed, all nine stored address fields are the validated, non-blank values |
| `Checkout.NormalizeIdempotent` | controllers/paymentController.js:189-253 | a stored address submitted again passes validation and is stored unchanged |
| `Checkout.NameNeverUsed` | controllers/paymentController.js:243-245 | the `name`-split fallback never reaches a stored order: any `name` value gives the same validation result and the same address |
| `Checkout.NewOrder` | controllers/paymentController.js:226-257 | a new order is pending in both statuses, belongs to the caller, has amount = Σ price × quantity of its own lines, one line per item with the item's id, name, image, price and quantity, the validated address, and the request's payment method or `"cod"` |
| `Checkout.CreateOrder` | controllers/paymentController.js:171-276 | no user, bad items, no address, missing fields, missing product ids and a taken id are checked in that order, each with its own response and no write; success stores exactly the new order and appends its id to an existing user's list |
| `Checkout.PushOrder` | controllers/paymentController.js:262-264 | an existing user's order list gets the new id appended at the end; other users' lists are untouched; for a missing user nothing changes |
| `Checkout.CreateOrderWellKeyed` | controllers/paymentController.js:259 | creating an order keeps every stored order under its own id |
| `Checkout.PendingWhateverPaymentMethod` | controllers/paymentController.js:254-256 | the payment method, including the `"cod"` default, affects neither acceptance, the initial statuses nor the amount |
| `PaymentIntent.CreatePaymentIntent` | controllers/paymentController.js:11-54 | no user, unknown order, another user's order and an already paid order are refused in that order without contacting the processor; otherwise one intent is requested for 100 × amount in `usd` with `{orderId, userId}` metadata, and the reply is the secret with the stored amount or the processor's error |
| `PaymentIntent.ChargeMatchesEcho` | controllers/paymentController.js:36-49 | on success the amount charged is 100 × the amount echoed, and the metadata names the requested order and its owner |
| `PaymentIntent.RequestIndependentOfProcessor` | controllers/paymentController.js:17-43 | whether and with what arguments an intent is requested does not depend on the processor's answer |
| `ConfirmPayment.MarkPaid` | controllers/paymentController.js:88-90 | confirmation sets payment status paid and order status confirmed and changes nothing else on the order |
| `ConfirmPayment.ConfirmPayment` | controllers/paymentController.js:57-122 | 401 without identity, 404 for an unknown order and 403 for another user's order, checked in that order, each with no write; status 200 exactly for the owner, and then only that order changes, to paid |
| `ConfirmPayment.ConfirmPaymentWellKeyed` | controllers/paymentController.js:88-90 | confirmation keeps every stored order under its own id |
| `ConfirmPayment.ConfirmIgnoresMailAndIntent` | controllers/paymentController.js:102-113 | a failed confirmation mail and the client's intent id change neither the store nor the response |
| `ConfirmPayment.ConfirmIdempotent` | controllers/paymentController.js:88-113 | confirming a second time changes nothing and answers the same |
| `Webhook.FindByIdAndUpdate` | controllers/paymentController.js:147-160 | only the order with the given id changes: it gets the patch's payment status, and its order status when the patch sets one; no other field changes; an absent or unknown id changes nothing (an assumption about Mongoose) |
| `Webhook.ApplyEvent` | controllers/paymentController.js:141-165 | success sets the named order paid and confirmed; failure sets only its payment status to failed; other kinds, unknown orders and other orders are untouched |
| `Webhook.HandleWebhook` | controllers/paymentController.js:125-168 | a rejected signature gives 400 with the reason and no write; every verified event is acknowledged with `{received: true}` whatever its kind |
| `Webhook.HandleWebhookWellKeyed` | controllers/paymentController.js:125-168 | webhook handling keeps every stored order under its own id |
| `Webhook.ApplyEventIdempotent` | controllers/paymentController.js:141-165 | applying an event twice gives the same orders as applying it once |
| `Webhook.RedeliveryIdempotent` | controllers/paymentController.js:125-168 | a re-delivered webhook leaves the store and the response as the first delivery did |
| `Webhook.FailureAfterSuccessOverwrites` | controllers/paymentController.js:142-161 | a failure event after a success event leaves the order failed but confirmed: paid is not absorbing |
| `Webhook.LastWriterWins` | controllers/paymentController.js:141-165 | after any sequence of events an order's payment status is the one the last event acting on it wrote, and it is confirmed exactly when some success event named it or it already was |
| `Webhook.ConfirmAndWebhookConverge` | controllers/paymentController.js:142-150 | for the owner, client confirmation and a success webhook give the same store in either order, and the later one changes nothing |
| `Chat.FirstBrandFrom` | routes/chatRoutes.js:18-23 | the brand loop stops at the first brand in list order that the message contains, having found none before it |
| `Chat.Keyword` | routes/chatRoutes.js:14-29 | the keyword always occurs in the lower-cased message, and is a listed brand or one of its space-separated segments |
| `Chat.KeywordChoice` | routes/chatRoutes.js:14-29 | with a brand present, the keyword is the earliest brand in list order; with none, it is the space-free suffix after the last space |
| `Chat.ListOrderBeatsPosition` | routes/chatRoutes.js:14-23 | in "puma or nike" the keyword is "nike": list order wins over position in the message |
| `Chat.TrailingSpaceGivesEmptyKeyword` | routes/chatRoutes.js:26-29 | with no brand, a message ending in a space yields the empty keyword |
| `Chat.Take` | routes/chatRoutes.js:34 | the kept products are the first ones the query returned, at most the limit |
| `Chat.ProductLine` | routes/chatRoutes.js:43 | a product line is `- `, the name, ` (`, the decimal price and ` VND)`, so name and price can be read back from their fixed places |
| `Chat.FormatReply` | routes/chatRoutes.js:41-43 | the reply starts with the count header and a line break, and every kept product's line appears in it |
| `Chat.ReplyLines` | routes/chatRoutes.js:41-43 | read line by line, the reply is the count header followed by one `- name (price VND)` line per product, in order |
| `Chat.HandleChat` | routes/chatRoutes.js:6-50 | the 500 error reply comes exactly when there is no message or the query throws; otherwise the query uses the keyword of the lower-cased last message, the first min(5, n) of the n products found are kept, and the reply is the not-found text when none are kept, else the formatted list |
| `Chat.CaseInsensitive` | routes/chatRoutes.js:9 | last messages that lower-case alike get identical answers |

## Left out

- Persistence is two maps. The model does not cover:
  - Mongoose itself;
  - the cast error a malformed id raises;
  - a failure between saving the order and pushing its id onto the user's list. The two writes are not atomic in the source.
- A user that does not exist is left unchanged by the `$push`, as `findByIdAndUpdate` does.
- Amounts, prices and quantities are integers in whole currency units. Floating point, `NaN` from a missing price, and the rounding of `Math.round(amount * 100)` are not modelled. `100 * amount` is exact here.
- Address values are strings or absent. A truthy non-string value reaches `trim` at controllers/paymentController.js:203 and makes it throw into the catch. That path is not modelled. Falsy non-strings (`0`, `null`, `false`) count as missing, as an absent value does.
- Cart items are records. A `null` or `undefined` item makes `item._id` at controllers/paymentController.js:217 throw into the catch at :272-275. That path is not modelled. A primitive item such as `5`, `"x"` or `true` reads every property as `undefined`. It is the `Item` with every property absent, and the cart is rejected with the product-id message at :219-223.
- `paymentMethod` is absent or a string. An explicit `null` is not distinguished from absent.
- The Stripe SDK is not modelled. Intent creation and signature verification are function parameters; their internals, the raw-body requirement and the secret are outside the model.
- Email is left out:
  - `utils/sendEmail.js` is I/O, and it also swallows its own errors;
  - `sendConfirmationEmail` is I/O. It answers 400 when `orderId` or `paymentIntentId` is missing (:280-283). Otherwise it reads the undefined `Order` at :286, and the catch at :312-314 turns that error into a 500.
- `ConfirmPayment.MarkPaid`: the source text of `confirmPayment` is damaged at controllers/paymentController.js:90-101. Setting `status = confirmed` there is an assumption taken from the webhook's success branch. The save and the mail body cannot be read. The save is modelled as the store update. The mail attempt is the `MailResult` parameter, which reaches nothing.
- A save that throws in `confirmPayment` (the 500 catch path) is not modelled.
- A malformed metadata order id makes the webhook's `findByIdAndUpdate` reject outside any `try`. That is not modelled. An unknown id is modelled as a no-op, because `findByIdAndUpdate` matches no document. A missing id is also modelled as a no-op. That is an assumption about how Mongoose treats `findByIdAndUpdate(undefined, …)`, and nothing in the source shows it (`Webhook.FindByIdAndUpdate`).
- `Text.ToLower`: `toLowerCase` is modelled for these letters only:
  - ASCII;
  - Latin-1;
  - Latin Extended-A up to U+012F;
  - Ơ and Ư;
  - the Vietnamese block U+1EA0–U+1EF9.

  Other scripts are left unchanged, and Unicode special casings are not modelled.
- `Text.IntToString`: JavaScript's rendering of non-integer prices and of numbers of 1e21 and above is not modelled. Prices are integers.
- Chat:
  - the product query (a case-insensitive regex over names) is the `find` parameter. It returns the products found, or `None` when the query throws, for example on an invalid regular expression such as `(vnd` or on a database error. Which keywords make it throw and what a metacharacter matches are not modelled;
  - messages are their `content` strings; a non-string content is not modelled.
- Server bootstrap (`index.mjs`, `server.js`): CORS, route loading and connections are plumbing.
- Concurrency: interleavings of a webhook and a client confirmation are not modelled. Their sequential combinations are (`Webhook.LastWriterWins`, `Webhook.ConfirmAndWebhookConverge`).

=== FILE: chat.dfy ===
/**
 The chat product search (`POST /api/chat`): the keyword taken from the last
 message, and the reply built from the products found for it. The product
 query itself is a parameter.
 */
module Chat {
  import opened JsValues
  import opened Text

  datatype Product = Product(name: string, price: int)

  datatype ChatResponse = ChatResponse(status: nat, reply: string, products: seq<Product>)

  /** The response, and the keyword the product query was run with (if it was run). */
  datatype ChatOutcome = ChatOutcome(query: Option<string>, response: ChatResponse)

  /** The brands looked for, in the order they are tried. */
  const Brands: seq<string> := ["nike", "adidas", "puma", "asics", "mizuno"]

  /** At most this many products are returned by the query. */
  const ResultLimit: nat := 5

  const NotFoundReply: string := "Không tìm thấy sản phẩm nào phù hợp."
  const ErrorReply: string := "Có lỗi xảy ra, thử lại sau nhé."
  const HeaderPrefix: string := "Mình tìm thấy "
  const HeaderSuffix: string := " sản phẩm:"

  // ---------------------------------------------------------------------------
  // keyword
  // ---------------------------------------------------------------------------

  /** The first position from `from` on whose brand `msg` contains; `|brands|` when there is none. */
  function FirstBrandFrom(msg: string, brands: seq<string>, from: nat): (i: nat)
    requires from <= |brands|
    ensures from <= i <= |brands|
    ensures i < |brands| ==> Contains(msg, brands[i])
    ensures forall j :: from <= j < i ==> !Contains(msg, brands[j])
    decreases |brands| - from
  {
    if from == |brands| then from
    else if Contains(msg, brands[from]) then from
    else FirstBrandFrom(msg, brands, from + 1)
  }

  /** The keyword for an (already lower-cased) message: a contained brand, else its last word. */
  function Keyword(msg: string): (kw: string)
    ensures Contains(msg, kw)
    ensures kw in Brands || kw in Split(msg, ' ')
  {
    var i := FirstBrandFrom(msg, Brands, 0);
    if i < |Brands| then Brands[i]
    else
      var words := Split(msg, ' ');
      LastSegment(msg, ' ');
      ContainsSuffix(msg, |msg| - |Last(words)|);
      Last(words)
  }

  /**
   When some brand occurs, the keyword is the first brand of the list that
   occurs; otherwise it is what follows the last space (the whole message if
   there is no space).
   */
  lemma KeywordChoice(msg: string)
    ensures (exists i :: 0 <= i < |Brands| && Contains(msg, Brands[i])) ==>
              exists i :: && 0 <= i < |Brands| && Keyword(msg) == Brands[i]
                          && Contains(msg, Brands[i])
                          && forall j :: 0 <= j < i ==> !Contains(msg, Brands[j])
    ensures (forall i :: 0 <= i < |Brands| ==> !Contains(msg, Brands[i])) ==>
              && ' ' !in Keyword(msg)
              && |Keyword(msg)| <= |msg| && msg[|msg| - |Keyword(msg)|..] == Keyword(msg)
              && (|Keyword(msg)| < |msg| ==> msg[|msg| - |Keyword(msg)| - 1] == ' ')
  {
    var i := FirstBrandFrom(msg, Brands, 0);
    if i == |Brands| {
      LastSegment(msg, ' ');
    }
  }

  /** The list order decides, not the position in the message. */
  lemma ListOrderBeatsPosition()
    ensures Keyword("puma or nike") == "nike"
  {
    var msg := "puma or nike";
    assert msg[8..12] == "nike";
    assert OccursAt(msg, "nike", 8);
    ContainsIffOccurs(msg, "nike");
  }

  /** With no brand in it, a message ending in a space yields the empty keyword. */
  lemma TrailingSpaceGivesEmptyKeyword(msg: string)
    requires forall i :: 0 <= i < |Brands| ==> !Contains(msg, Brands[i])
    requires msg != [] && msg[|msg| - 1] == ' '
    ensures Keyword(msg) == []
  {
    KeywordChoice(msg);
  }

  // ---------------------------------------------------------------------------
  // reply
  // ---------------------------------------------------------------------------

  function Header(count: nat): string
  {
    HeaderPrefix + NatToString(count) + HeaderSuffix
  }

  /**
   One line of the reply: `- name (price VND)`. The name and the decimal
   price sit at fixed places, so both can be read back from the line.
   */
  function ProductLine(p: Product): (l: string)
    ensures |l| == 2 + |p.name| + 2 + |IntToString(p.price)| + 5
    ensures l[..2] == "- " && l[2..2 + |p.name|] == p.name && l[2 + |p.name|..4 + |p.name|] == " ("
    ensures l[4 + |p.name|..|l| - 5] == IntToString(p.price) && l[|l| - 5..] == " VND)"
  {
    "- " + p.name + " (" + IntToString(p.price) + " VND)"
  }

  function ProductLines(products: seq<Product>): (lines: seq<string>)
    ensures |lines| == |products|
    ensures forall i :: 0 <= i < |products| ==> lines[i] == ProductLine(products[i])
  {
    seq(|products|, i requires 0 <= i < |products| => ProductLine(products[i]))
  }

  /** The reply for a non-empty list: a count header, then one line per product. */
  function FormatReply(products: seq<Product>): (reply: string)
    requires products != []
    ensures Header(|products|) + "\n" <= reply
    ensures forall i :: 0 <= i < |products| ==> Contains(reply, ProductLine(products[i]))
  {
    var lines := ProductLines(products);
    forall i | 0 <= i < |products|
      ensures Contains(Header(|products|) + "\n" + Join(lines, "\n"), ProductLine(products[i]))
    {
      JoinContainsParts(lines, "\n", i);
      ContainsInContext(Header(|products|) + "\n", Join(lines, "\n"), [], lines[i]);
      assert Header(|products|) + "\n" + Join(lines, "\n") + [] == Header(|products|) + "\n" + Join(lines, "\n");
    }
    Header(|products|) + "\n" + Join(lines, "\n")
  }

  function Take<T>(xs: seq<T>, n: nat): (r: seq<T>)
    ensures |r| <= n && |r| <= |xs|
    ensures r == xs[..|r|]
    ensures |r| == n || r == xs
  {
    if |xs| <= n then xs else xs[..n]
  }

  lemma NoNewlineInHeader(count: nat)
    ensures '\n' !in Header(count)
  {
    var d := NatToString(count);
    assert '\n' !in HeaderPrefix && '\n' !in HeaderSuffix;
    assert forall i :: 0 <= i < |d| ==> d[i] != '\n';
  }

  lemma NoNewlineInLine(p: Product)
    requires '\n' !in p.name
    ensures '\n' !in ProductLine(p)
  {
    var d := IntToString(p.price);
    assert forall i :: 0 <= i < |d| ==> d[i] != '\n';
    assert '\n' !in "- " && '\n' !in " (" && '\n' !in " VND)";
  }

  /**
   Reading the reply back line by line gives the header followed by exactly
   one line per product, in order, as long as no product name holds a line
   break.
   */
  lemma ReplyLines(products: seq<Product>)
    requires products != []
    requires forall i :: 0 <= i < |products| ==> '\n' !in products[i].name
    ensures Split(FormatReply(products), '\n') == [Header(|products|)] + ProductLines(products)
  {
    var parts := [Header(|products|)] + ProductLines(products);
    assert parts[1..] == ProductLines(products);
    NoNewlineInHeader(|products|);
    forall i | 0 <= i < |parts|
      ensures '\n' !in parts[i]
    {
      if i > 0 {
        NoNewlineInLine(products[i - 1]);
      }
    }
    SplitJoin(parts, '\n');
  }

  // ---------------------------------------------------------------------------
  // the handler
  // ---------------------------------------------------------------------------

  /**
   The chat handler for the contents of `messages`. `find` stands for the
   product query by keyword: the products it returns, or `None` when it
   throws (an invalid regular expression, a database error). At most
   `ResultLimit` of its results are kept.
   */
  function HandleChat(messages: seq<string>, find: string -> Option<seq<Product>>): (out: ChatOutcome)
    // no last message to read: the error reply, and no query
    ensures messages == [] ==> out == ChatOutcome(None, ChatResponse(500, ErrorReply, []))
    // otherwise the query runs with a keyword that occurs in the lower-cased last message
    ensures messages != [] ==>
              && out.query == Some(Keyword(ToLower(Last(messages))))
              && Contains(ToLower(Last(messages)), out.query.value)
    // the error reply exactly when there is no message or the query throws
    ensures out.response.status == 500 <==> messages == [] || find(out.query.value).None?
    ensures out.response.status == 500 ==> out.response == ChatResponse(500, ErrorReply, [])
    // otherwise the first min(5, n) of the n products found, and the matching reply
    ensures out.response.status != 500 ==>
              var found := find(out.query.value).value;
              && out.response.status == 200
              && |out.response.products| == (if |found| < ResultLimit then |found| else ResultLimit)
              && out.response.products == found[..|out.response.products|]
              && (out.response.products == [] ==> out.response.reply == NotFoundReply)
              && (out.response.products != [] ==> out.response.reply == FormatReply(out.response.products))
  {
    if messages == [] then ChatOutcome(None, ChatResponse(500, ErrorReply, []))
    else
      var lowered := ToLower(Last(messages));
      var kw := Keyword(lowered);
      match find(kw)
      case None => ChatOutcome(Some(kw), ChatResponse(500, ErrorReply, []))
      case Some(results) =>
        var found := Take(results, ResultLimit);
        if found == [] then ChatOutcome(Some(kw), ChatResponse(200, NotFoundReply, []))
        else ChatOutcome(Some(kw), ChatResponse(200, FormatReply(found), found))
  }

  /** Only the lower-cased last message matters: messages differing in case get the same answer. */
  lemma CaseInsensitive(earlier: seq<string>, m1: string, m2: string, find: string -> Option<seq<Product>>)
    requires ToLower(m1) == ToLower(m2)
    ensures HandleChat(earlier + [m1], find) == HandleChat(earlier + [m2], find)
  {
  }
}

=== FILE: checkout.dfy ===
/**
 Order creation (`createOrder`): validation of the cart in a fixed order,
 resolution of the address fields, the server-side total, and the new order
 in its initial pending state, stored together with a reference in the
 user's order list.
 */
module Checkout {
  import opened JsValues
  import opened Text
  import opened Seqs
  import opened Orders

  /** A cart item as the client sends it; every property may be missing. */
  datatype Item = Item(
    id: Option<string>,
    productId: Option<string>,
    name: Option<string>,
    title: Option<string>,
    price: int,
    quantity: int,
    images: Option<seq<string>>,
    image: Option<string>)

  /** The client's address payload: property name to string value. */
  type RawAddress = map<string, string>

  /**
   The request body. `items` is `None` when it is missing or not an array;
   `address` is `None` when it is missing or falsy.
   */
  datatype OrderRequest = OrderRequest(
    items: Option<seq<Item>>,
    address: Option<RawAddress>,
    paymentMethod: Option<string>)

  /** The required address fields, in the order the validation checks and reports them. */
  const RequiredFields: seq<FieldName> :=
    [FirstName, LastName, Email, Street, City, State, Zipcode, Country, Phone]

  const DefaultPaymentMethod: string := "cod"

  const ItemsRequired: string := "Order items are required"
  const AddressRequired: string := "Delivery address is required"
  const MissingFieldsPrefix: string := "Missing required address fields1: "
  const ProductIdRequired: string := "All items must have a valid product ID"

  // ---------------------------------------------------------------------------
  // address validation
  // ---------------------------------------------------------------------------

  function Lookup(a: RawAddress, key: string): Option<string>
  {
    if key in a then Some(a[key]) else None
  }

  /** The second property consulted for a required field. */
  function FallbackKey(field: FieldName): string
  {
    if field == Zipcode then "zipCode" else Key(field)
  }

  /** The value validation looks at: the field itself, or its fallback when the field is falsy. */
  function ResolvedValue(a: RawAddress, field: FieldName): Option<string>
  {
    Or(Lookup(a, Key(field)), Lookup(a, FallbackKey(field)))
  }

  /** The field's value is falsy, or trims to the empty string. */
  predicate IsMissing(a: RawAddress, field: FieldName)
  {
    var v := ResolvedValue(a, field);
    !Truthy(v) || Trim(v.value) == []
  }

  /** The fields of `fields` that are missing from `a`, in the order of `fields`. */
  function MissingFields(a: RawAddress, fields: seq<FieldName>): (r: seq<FieldName>)
    ensures IsSubsequence(r, fields)
    ensures forall f :: f in r <==> f in fields && IsMissing(a, f)
  {
    if fields == [] then []
    else
      var rest := MissingFields(a, fields[1..]);
      assert fields == [fields[0]] + fields[1..];
      if IsMissing(a, fields[0]) then
        assert ([fields[0]] + rest)[1..] == rest;
        [fields[0]] + rest
      else
        rest
  }

  /**
   The missing-field list is the only list that keeps the declared order and
   holds exactly the required fields whose value is absent or blank.
   */
  lemma MissingFieldsExact(a: RawAddress, r: seq<FieldName>)
    requires IsSubsequence(r, RequiredFields)
    requires forall f :: f in r <==> f in RequiredFields && IsMissing(a, f)
    ensures r == MissingFields(a, RequiredFields)
  {
    assert Distinct(RequiredFields);
    SubsequenceUnique(r, MissingFields(a, RequiredFields), RequiredFields);
  }

  /** The property names of a list of fields. */
  function Keys(fields: seq<FieldName>): (r: seq<string>)
    ensures |r| == |fields|
    ensures forall i :: 0 <= i < |fields| ==> r[i] == Key(fields[i])
  {
    seq(|fields|, i requires 0 <= i < |fields| => Key(fields[i]))
  }

  /** No required field is missing. */
  predicate NoneMissing(a: RawAddress)
  {
    forall f :: !IsMissing(a, f)
  }

  /** The missing-field list is empty exactly when no field is missing. */
  lemma NoneMissingIffEmpty(a: RawAddress)
    ensures MissingFields(a, RequiredFields) == [] <==> NoneMissing(a)
  {
    var r := MissingFields(a, RequiredFields);
    forall f
      ensures f in RequiredFields
    {
      match f
      case FirstName =>
      case LastName =>
      case Email =>
      case Street =>
      case City =>
      case State =>
      case Zipcode =>
      case Country =>
      case Phone =>
    }
    if r != [] {
      assert r[0] in r;
    }
  }

  /** A field is missing exactly when its value is absent or consists of white space only. */
  lemma MissingIffBlank(a: RawAddress, field: FieldName)
    ensures IsMissing(a, field) <==>
              ResolvedValue(a, field).None? || IsBlank(ResolvedValue(a, field).value)
  {
    var v := ResolvedValue(a, field);
    if v.Some? {
      TrimEmptyIffBlank(v.value);
    }
  }

  /** No required field other than `zipcode` has a second property to fall back on. */
  lemma OnlyZipcodeFallsBack(a: RawAddress, field: FieldName)
    requires field != Zipcode
    ensures ResolvedValue(a, field) == Lookup(a, Key(field))
  {
  }

  /**
   `zipCode` is consulted only when `zipcode` is falsy: a `zipcode` of spaces
   makes the field missing even when `zipCode` holds a value.
   */
  lemma ZipcodeFallback(a: RawAddress)
    ensures IsMissing(a, Zipcode) <==>
              if Truthy(Lookup(a, "zipcode")) then IsBlank(a["zipcode"])
              else !Truthy(Lookup(a, "zipCode")) || IsBlank(a["zipCode"])
  {
    MissingIffBlank(a, Zipcode);
  }

  /** The case above, concretely. */
  lemma BlankZipcodeShadowsZipCode()
    ensures IsMissing(map["zipcode" := " ", "zipCode" := "70000"], Zipcode)
  {
    var a := map["zipcode" := " ", "zipCode" := "70000"];
    assert Lookup(a, "zipcode") == Some(" ");
    ZipcodeFallback(a);
  }

  // ---------------------------------------------------------------------------
  // order construction
  // ---------------------------------------------------------------------------

  /** The item names a product through `_id` or `productId`. */
  predicate HasProductRef(item: Item)
  {
    Truthy(item.id) || Truthy(item.productId)
  }

  predicate AllHaveProductRef(items: seq<Item>)
  {
    forall i :: 0 <= i < |items| ==> HasProductRef(items[i])
  }

  function FirstImage(item: Item): Option<string>
  {
    if item.images.Some? && item.images.value != [] then Some(item.images.value[0]) else None
  }

  /** The stored line for a cart item. */
  function ToLine(item: Item): (l: OrderLine)
    requires HasProductRef(item)
    ensures l.productId != []
    ensures l.productId == (if Truthy(item.id) then item.id.value else item.productId.value)
    ensures l.price == item.price && l.quantity == item.quantity
    // the name is `name` when truthy, else `title`; the image the first of `images` when truthy, else `image`
    ensures l.name == (if Truthy(item.name) then item.name else item.title)
    ensures l.image == (if Truthy(FirstImage(item)) then FirstImage(item) else item.image)
  {
    OrderLine(Or(item.id, item.productId).value, Or(item.name, item.title),
              item.price, item.quantity, Or(FirstImage(item), item.image))
  }

  function ToLines(items: seq<Item>): (lines: seq<OrderLine>)
    requires AllHaveProductRef(items)
    ensures |lines| == |items|
    ensures forall i :: 0 <= i < |items| ==> lines[i] == ToLine(items[i])
  {
    seq(|items|, i requires 0 <= i < |items| => ToLine(items[i]))
  }

  /** The left-to-right accumulation the handler performs over the cart: it adds the cart's sum to `acc`. */
  function Accumulate(items: seq<Item>, acc: int): (r: int)
    ensures r == acc + ItemsTotal(items)
  {
    if items == [] then acc else Accumulate(items[1..], acc + items[0].price * items[0].quantity)
  }

  /** Σ price × quantity over the cart items. */
  function ItemsTotal(items: seq<Item>): int
  {
    if items == [] then 0 else items[0].price * items[0].quantity + ItemsTotal(items[1..])
  }

  /** The stored lines total what the cart items total. */
  lemma {:induction false} LinesTotalOfItems(items: seq<Item>)
    requires AllHaveProductRef(items)
    ensures LinesTotal(ToLines(items)) == ItemsTotal(items)
  {
    if items != [] {
      LinesTotalOfItems(items[1..]);
      assert ToLines(items)[1..] == ToLines(items[1..]);
    }
  }

  /** First word of `name`, as `name.split(" ")[0]`. */
  function NameHead(a: RawAddress): Option<string>
  {
    if "name" in a then Some(Split(a["name"], ' ')[0]) else None
  }

  /** The rest of `name`, as `name.split(" ").slice(1).join(" ")`. */
  function NameTail(a: RawAddress): Option<string>
  {
    if "name" in a then Some(Join(Split(a["name"], ' ')[1..], " ")) else None
  }

  /** The value the order constructor writes for a field, with its fallbacks. */
  function StoredValue(a: RawAddress, f: FieldName): (v: string)
    // a truthy property of the field's own name is stored as it is
    ensures Truthy(Lookup(a, Key(f))) ==> v == a[Key(f)]
    // otherwise: the words of `name` for the two name fields, `zipCode` for the zipcode, and "" for the rest
    ensures !Truthy(Lookup(a, Key(f))) ==>
              v == match f
                   case FirstName => OrEmpty(NameHead(a))
                   case LastName => OrEmpty(NameTail(a))
                   case Zipcode => OrEmpty(Lookup(a, "zipCode"))
                   case _ => []
  {
    match f
    case FirstName => OrEmpty(Or(Lookup(a, "firstName"), NameHead(a)))
    case LastName => OrEmpty(Or(Lookup(a, "lastName"), NameTail(a)))
    case Zipcode => OrEmpty(Or(Lookup(a, "zipcode"), Lookup(a, "zipCode")))
    case _ => OrEmpty(Lookup(a, Key(f)))
  }

  /** The stored address: each of the nine fields written with its own fallbacks. */
  function BuildAddress(a: RawAddress): (c: Address)
    ensures forall f :: Field(c, f) == StoredValue(a, f)
  {
    Address(
      StoredValue(a, FirstName), StoredValue(a, LastName), StoredValue(a, Email),
      StoredValue(a, Street), StoredValue(a, City), StoredValue(a, State),
      StoredValue(a, Zipcode), StoredValue(a, Country), StoredValue(a, Phone))
  }

  /** A field that passed validation is stored as the value validation accepted, which is not blank. */
  lemma StoredIsValidated(a: RawAddress, f: FieldName)
    requires !IsMissing(a, f)
    ensures ResolvedValue(a, f).Some?
    ensures Field(BuildAddress(a), f) == ResolvedValue(a, f).value
    ensures !IsBlank(ResolvedValue(a, f).value)
  {
    MissingIffBlank(a, f);
  }

  /**
   Once validation has passed, every stored address field is the value that
   validation accepted, which is not blank.
   */
  lemma BuildAddressKeepsValidated(a: RawAddress)
    requires NoneMissing(a)
    ensures forall f :: ResolvedValue(a, f).Some?
    ensures forall f :: Field(BuildAddress(a), f) == ResolvedValue(a, f).value
    ensures forall f :: !IsBlank(ResolvedValue(a, f).value)
  {
    forall f
      ensures ResolvedValue(a, f).Some?
      ensures Field(BuildAddress(a), f) == ResolvedValue(a, f).value
      ensures !IsBlank(ResolvedValue(a, f).value)
    {
      StoredIsValidated(a, f);
    }
  }

  /** No field is read from a property called `name` during validation. */
  lemma KeysAreNotName(f: FieldName)
    ensures Key(f) != "name" && FallbackKey(f) != "name"
  {
    match f
    case FirstName =>
    case LastName =>
    case Email =>
    case Street =>
    case City => assert Key(f)[0] != "name"[0];
    case State =>
    case Zipcode =>
    case Country =>
    case Phone =>
  }

  /** So the `name` property never reaches a stored order: the split fallback is dead code. */
  lemma NameNeverUsed(a: RawAddress, name: string)
    requires NoneMissing(a)
    ensures NoneMissing(a["name" := name])
    ensures BuildAddress(a["name" := name]) == BuildAddress(a)
  {
    var b := a["name" := name];
    forall f
      ensures ResolvedValue(b, f) == ResolvedValue(a, f)
    {
      KeysAreNotName(f);
    }
    assert forall f :: IsMissing(b, f) == IsMissing(a, f);
    BuildAddressKeepsValidated(a);
    BuildAddressKeepsValidated(b);
    AddressByFields(BuildAddress(b), BuildAddress(a));
  }

  /** A stored address sent back as a payload: the nine fields under their own property names. */
  function Raw(c: Address): (a: RawAddress)
    ensures forall f :: Lookup(a, Key(f)) == Some(Field(c, f))
    ensures "name" !in a && "zipCode" !in a
  {
    map["firstName" := c.firstName, "lastName" := c.lastName, "email" := c.email,
        "street" := c.street, "city" := c.city, "state" := c.state,
        "zipcode" := c.zipcode, "country" := c.country, "phone" := c.phone]
  }

  /**
   Normalisation is idempotent: a stored address, submitted again, passes
   validation and is stored unchanged.
   */
  lemma NormalizeIdempotent(a: RawAddress)
    requires NoneMissing(a)
    ensures NoneMissing(Raw(BuildAddress(a)))
    ensures BuildAddress(Raw(BuildAddress(a))) == BuildAddress(a)
  {
    var c := BuildAddress(a);
    var b := Raw(c);
    BuildAddressKeepsValidated(a);
    forall f
      ensures ResolvedValue(b, f) == Some(Field(c, f))
      ensures !IsMissing(b, f)
    {
      assert Field(c, f) != [];
      MissingIffBlank(b, f);
    }
    BuildAddressKeepsValidated(b);
    AddressByFields(BuildAddress(b), c);
  }

  // ---------------------------------------------------------------------------
  // the handler
  // ---------------------------------------------------------------------------

  /** `items` is a non-empty array. */
  predicate HasItems(req: OrderRequest)
  {
    req.items.Some? && req.items.value != []
  }

  /** The request passes every check of the handler. */
  predicate ValidCart(req: OrderRequest)
  {
    && HasItems(req)
    && req.address.Some?
    && NoneMissing(req.address.value)
    && AllHaveProductRef(req.items.value)
  }

  function Reject(db: Db, message: string): Outcome
  {
    Outcome(db, Response(200, Rejected(message)))
  }

  /** The order built from a valid cart. */
  function NewOrder(id: OrderId, user: UserId, req: OrderRequest): (o: Order)
    requires ValidCart(req)
    ensures o.id == id && o.userId == user
    ensures o.paymentStatus == PaymentPending && o.status == OrderPending
    ensures o.amount == ItemsTotal(req.items.value) == LinesTotal(o.items)
    ensures |o.items| == |req.items.value|
    ensures forall i :: 0 <= i < |o.items| ==>
              var item := req.items.value[i];
              && o.items[i].price == item.price && o.items[i].quantity == item.quantity
              && o.items[i].productId == (if Truthy(item.id) then item.id.value else item.productId.value)
              && o.items[i].name == (if Truthy(item.name) then item.name else item.title)
              && o.items[i].image == (if Truthy(FirstImage(item)) then FirstImage(item) else item.image)
    // the request's payment method, `"cod"` when it sends none
    ensures o.paymentMethod == if req.paymentMethod.Some? then req.paymentMethod.value else DefaultPaymentMethod
    ensures forall f :: && ResolvedValue(req.address.value, f).Some?
                        && Field(o.address, f) == ResolvedValue(req.address.value, f).value
  {
    var items := req.items.value;
    LinesTotalOfItems(items);
    BuildAddressKeepsValidated(req.address.value);
    var payWith := if req.paymentMethod.Some? then req.paymentMethod.value else DefaultPaymentMethod;
    Order(id, user, ToLines(items), Accumulate(items, 0), BuildAddress(req.address.value),
          payWith, PaymentPending, OrderPending)
  }

  /** Adds `id` to the user's order list, when the user exists. */
  function PushOrder(userOrders: map<UserId, seq<OrderId>>, user: UserId, id: OrderId): (r: map<UserId, seq<OrderId>>)
    ensures r.Keys == userOrders.Keys
    ensures user in userOrders ==> r[user] == userOrders[user] + [id]
    ensures forall u :: u in userOrders && u != user ==> r[u] == userOrders[u]
    ensures user !in userOrders ==> r == userOrders
  {
    if user in userOrders then userOrders[user := userOrders[user] + [id]] else userOrders
  }

  /**
   `createOrder` for the caller `user` (`None` when no user is attached to the
   request). `newId` is the id the database assigns to the new document.
   */
  function CreateOrder(db: Db, user: Option<UserId>, req: OrderRequest, newId: OrderId): (out: Outcome)
    ensures out.response.status == 200
    // a rejected request leaves both collections as they were
    ensures !out.response.body.OrderPlaced? ==> out.db == db
    // the checks, in their order
    ensures user.None? ==> out.response.body == Crashed(NoUser)
    ensures user.Some? && !HasItems(req) ==> out.response.body == Rejected(ItemsRequired)
    ensures user.Some? && HasItems(req) && req.address.None? ==>
              out.response.body == Rejected(AddressRequired)
    ensures user.Some? && HasItems(req) && req.address.Some? ==>
              var missing := MissingFields(req.address.value, RequiredFields);
              missing != [] ==> out.response.body == Rejected(MissingFieldsPrefix + Join(Keys(missing), ", "))
    ensures user.Some? && HasItems(req) && req.address.Some?
            && NoneMissing(req.address.value)
            && !AllHaveProductRef(req.items.value) ==>
              out.response.body == Rejected(ProductIdRequired)
    ensures user.Some? && ValidCart(req) && newId in db.orders ==>
              out.response.body == Crashed(DuplicateKey)
    // success, and what is stored on success
    ensures out.response.body.OrderPlaced? <==> user.Some? && ValidCart(req) && newId !in db.orders
    ensures out.response.body.OrderPlaced? ==>
              var o := out.response.body.order;
              && out.response.body.orderId == newId
              && o == NewOrder(newId, user.value, req)
              && out.db.orders == db.orders[newId := o]
              && out.db.userOrders == PushOrder(db.userOrders, user.value, newId)
  {
    if user.None? then Outcome(db, Response(200, Crashed(NoUser)))
    else if !HasItems(req) then Reject(db, ItemsRequired)
    else if req.address.None? then Reject(db, AddressRequired)
    else
      var missing := MissingFields(req.address.value, RequiredFields);
      NoneMissingIffEmpty(req.address.value);
      if missing != [] then Reject(db, MissingFieldsPrefix + Join(Keys(missing), ", "))
      else if !AllHaveProductRef(req.items.value) then Reject(db, ProductIdRequired)
      else if newId in db.orders then Outcome(db, Response(200, Crashed(DuplicateKey)))
      else
        var o := NewOrder(newId, user.value, req);
        Outcome(Db(db.orders[newId := o], PushOrder(db.userOrders, user.value, newId)),
                Response(200, OrderPlaced(newId, o)))
  }

  /** A successful creation keeps every stored order under its own id. */
  lemma CreateOrderWellKeyed(db: Db, user: Option<UserId>, req: OrderRequest, newId: OrderId)
    requires WellKeyed(db)
    ensures WellKeyed(CreateOrder(db, user, req, newId).db)
  {
  }

  /** The chosen payment method has no effect on the initial payment state. */
  lemma PendingWhateverPaymentMethod(db: Db, user: Option<UserId>, req: OrderRequest, newId: OrderId, m: Option<string>)
    ensures var a := CreateOrder(db, user, req, newId);
            var b := CreateOrder(db, user, req.(paymentMethod := m), newId);
            && a.response.body.OrderPlaced? == b.response.body.OrderPlaced?
            && (a.response.body.OrderPlaced? ==>
                  && a.response.body.order.paymentStatus == b.response.body.order.paymentStatus == PaymentPending
                  && a.response.body.order.status == b.response.body.order.status == OrderPending
                  && a.response.body.order.amount == b.response.body.order.amount)
  {
  }
}

=== FILE: confirm_payment.dfy ===
/**
 Client-side payment confirmation (`confirmPayment`): three guards with
 their HTTP status codes, then the order is marked paid and a confirmation
 mail is attempted, whose failure is swallowed.
 */
module ConfirmPayment {
  import opened JsValues
  import opened Orders

  /** The request body; the intent id is read but never used. */
  datatype ConfirmRequest = ConfirmRequest(orderId: OrderId, paymentIntentId: Option<string>)

  /** Whether sending the confirmation mail threw. */
  datatype MailResult = MailSent | MailFailed

  const NoToken: string := "User không hợp lệ (thiếu token)"
  const NotFound: string := "Không tìm thấy đơn hàng"
  const Forbidden: string := "Không có quyền xác nhận đơn hàng này"
  const ConfirmedMessage: string := "Thanh toán thành công và đã gửi email xác nhận"

  /** The order after confirmation. */
  function MarkPaid(o: Order): (p: Order)
    ensures p.paymentStatus == Paid && p.status == Confirmed
    ensures p.(paymentStatus := o.paymentStatus, status := o.status) == o
  {
    o.(paymentStatus := Paid, status := Confirmed)
  }

  /**
   `confirmPayment` for the caller `user` (`None`, or an empty id, when the
   request carries no identity). `mail` is the outcome of the mail attempt.
   */
  function ConfirmPayment(db: Db, user: Option<UserId>, req: ConfirmRequest, mail: MailResult): (out: Outcome)
    // the guards, in their order, each with its status code and no write
    ensures !Truthy(user) ==> out == Outcome(db, Response(401, Rejected(NoToken)))
    ensures Truthy(user) && req.orderId !in db.orders ==>
              out == Outcome(db, Response(404, Rejected(NotFound)))
    ensures Truthy(user) && req.orderId in db.orders && db.orders[req.orderId].userId != user.value ==>
              out == Outcome(db, Response(403, Rejected(Forbidden)))
    // the owner: the order, and only it, becomes paid
    ensures out.response.status == 200 <==>
              Truthy(user) && req.orderId in db.orders && db.orders[req.orderId].userId == user.value
    ensures out.response.status == 200 ==>
              var o := db.orders[req.orderId];
              && out.db == db.(orders := db.orders[req.orderId := MarkPaid(o)])
              && out.response.body == PaymentConfirmed(ConfirmedMessage, MarkPaid(o))
    ensures out.response.status != 200 ==> out.db == db
  {
    if !Truthy(user) then Outcome(db, Response(401, Rejected(NoToken)))
    else if req.orderId !in db.orders then Outcome(db, Response(404, Rejected(NotFound)))
    else
      var o := db.orders[req.orderId];
      if o.userId != user.value then Outcome(db, Response(403, Rejected(Forbidden)))
      else
        // the mail is attempted after the write; `mail` only says whether it threw, which is logged
        var paid := MarkPaid(o);
        Outcome(db.(orders := db.orders[req.orderId := paid]), Response(200, PaymentConfirmed(ConfirmedMessage, paid)))
  }

  /** Neither the mail outcome nor the client's intent id has any effect. */
  lemma ConfirmIgnoresMailAndIntent(db: Db, user: Option<UserId>, req: ConfirmRequest, intent: Option<string>)
    ensures ConfirmPayment(db, user, req, MailFailed) == ConfirmPayment(db, user, req.(paymentIntentId := intent), MailSent)
  {
  }

  /** Confirmation keeps every stored order under its own id. */
  lemma ConfirmPaymentWellKeyed(db: Db, user: Option<UserId>, req: ConfirmRequest, mail: MailResult)
    requires WellKeyed(db)
    ensures WellKeyed(ConfirmPayment(db, user, req, mail).db)
  {
  }

  /** Confirming twice leaves the store as confirming once, and answers the same. */
  lemma ConfirmIdempotent(db: Db, user: Option<UserId>, req: ConfirmRequest, mail: MailResult)
    ensures var once := ConfirmPayment(db, user, req, mail);
            ConfirmPayment(once.db, user, req, mail) == once
  {
  }
}

=== FILE: js_values.dfy ===
/**
 This module gives the few pieces of JavaScript value semantics that the
 request handlers lean on: an optional value (a property that may be
 `undefined`), the truthiness of an optional string, and the `||` operator
 on such values.
 */
module JsValues {

  /** A property read: `None` stands for `undefined` (or `null`). */
  datatype Option<+T> = None | Some(value: T)

  /** Truthiness of an optional string: only a present, non-empty string is truthy. */
  predicate Truthy(v: Option<string>)
  {
    v.Some? && v.value != []
  }

  /** JavaScript `a || b`: the left operand when it is truthy, the right one otherwise. */
  function Or(a: Option<string>, b: Option<string>): (r: Option<string>)
    ensures Truthy(r) <==> Truthy(a) || Truthy(b)
    ensures Truthy(a) ==> r == a
  {
    if Truthy(a) then a else b
  }

  /** JavaScript `v || ""`: the string itself when truthy, the empty string otherwise. */
  function OrEmpty(v: Option<string>): (r: string)
    ensures r != [] <==> Truthy(v)
  {
    if Truthy(v) then v.value else []
  }
}

=== FILE: orders.dfy ===
/**
 The entities the payment controller reads and writes: the order document
 with its line items and delivery address, the two collections it touches
 (orders, and each user's list of order ids), and the JSON responses the
 handlers send back.
 */
module Orders {
  import opened JsValues

  type OrderId = string
  type UserId = string

  /** The values the handlers write into `paymentStatus`. */
  datatype PaymentStatus = PaymentPending | Paid | PaymentFailed

  /** The values the handlers write into `status`. */
  datatype OrderStatus = OrderPending | Confirmed

  /** One stored line of an order. */
  datatype OrderLine = OrderLine(
    productId: string,
    name: Option<string>,
    price: int,
    quantity: int,
    image: Option<string>)

  /** The delivery address as stored on the order. */
  datatype Address = Address(
    firstName: string,
    lastName: string,
    email: string,
    street: string,
    city: string,
    state: string,
    zipcode: string,
    country: string,
    phone: string)

  datatype Order = Order(
    id: OrderId,
    userId: UserId,
    items: seq<OrderLine>,
    amount: int,
    address: Address,
    paymentMethod: string,
    paymentStatus: PaymentStatus,
    status: OrderStatus)

  /**
   The database as far as the handlers see it: the orders collection keyed by
   id, and the `orders` array of each existing user.
   */
  datatype Db = Db(orders: map<OrderId, Order>, userOrders: map<UserId, seq<OrderId>>)

  /** An exception caught by a handler's `catch` block. */
  datatype Fault =
    | NoUser                          // `req.user` is undefined, so reading `req.user.id` throws
    | DuplicateKey                    // `order.save()` with an id already in the collection
    | ProcessorError(message: string) // the payment processor rejected the request

  /** The JSON (or text) a handler sends. */
  datatype Body =
    | Rejected(message: string)                       // `{ success: false, message }`
    | Crashed(fault: Fault)                           // `{ success: false, message: error.message }`
    | OrderPlaced(orderId: OrderId, order: Order)     // `{ success: true, message, orderId, order }`
    | IntentIssued(clientSecret: string, amount: int) // `{ success: true, clientSecret, amount }`
    | PaymentConfirmed(message: string, order: Order) // `{ success: true, message, order }`
    | Received                                        // `{ received: true }`
    | WebhookError(text: string)                      // plain-text `Webhook Error: ...`

  datatype Response = Response(status: nat, body: Body)

  /** What a handler that may write leaves behind: the database and its response. */
  datatype Outcome = Outcome(db: Db, response: Response)

  /** Σ price × quantity over stored lines. */
  function LinesTotal(lines: seq<OrderLine>): int
  {
    if lines == [] then 0 else lines[0].price * lines[0].quantity + LinesTotal(lines[1..])
  }

  /** The nine address fields, in the order the validation lists them. */
  datatype FieldName =
    | FirstName | LastName | Email | Street | City | State | Zipcode | Country | Phone

  /** The property name of a field, in the request payload and in the stored document. */
  function Key(f: FieldName): string
  {
    match f
    case FirstName => "firstName"
    case LastName => "lastName"
    case Email => "email"
    case Street => "street"
    case City => "city"
    case State => "state"
    case Zipcode => "zipcode"
    case Country => "country"
    case Phone => "phone"
  }

  /** The stored value of a field. */
  function Field(a: Address, f: FieldName): string
  {
    match f
    case FirstName => a.firstName
    case LastName => a.lastName
    case Email => a.email
    case Street => a.street
    case City => a.city
    case State => a.state
    case Zipcode => a.zipcode
    case Country => a.country
    case Phone => a.phone
  }

  /** Two addresses that agree on every field are the same address. */
  lemma AddressByFields(x: Address, y: Address)
    requires forall f :: Field(x, f) == Field(y, f)
    ensures x == y
  {
    assert Field(x, FirstName) == Field(y, FirstName);
    assert Field(x, LastName) == Field(y, LastName);
    assert Field(x, Email) == Field(y, Email);
    assert Field(x, Street) == Field(y, Street);
    assert Field(x, City) == Field(y, City);
    assert Field(x, State) == Field(y, State);
    assert Field(x, Zipcode) == Field(y, Zipcode);
    assert Field(x, Country) == Field(y, Country);
    assert Field(x, Phone) == Field(y, Phone);
  }

  /** Every stored order sits under its own id. */
  predicate WellKeyed(db: Db)
  {
    forall id :: id in db.orders ==> db.orders[id].id == id
  }
}

=== FILE: payment_intent.dfy ===
/**
 Payment-intent issuing (`createPaymentIntent`): three guards, then one
 request to the payment processor whose arguments come from the stored
 order. The handler only reads the database, so its result carries no
 database at all.
 */
module PaymentIntent {
  import opened JsValues
  import opened Orders

  /** What is sent to the processor: the charge in minor units, the currency, and the correlation metadata. */
  datatype IntentRequest = IntentRequest(amountMinor: int, currency: string, orderId: OrderId, userId: UserId)

  /** The processor's answer: a created intent, or a thrown error. */
  datatype ProcessorReply = IntentCreated(clientSecret: string) | ProcessorFailure(message: string)

  /** The response, and the processor request made on the way (if any). */
  datatype IntentOutcome = IntentOutcome(requested: Option<IntentRequest>, response: Response)

  const Currency: string := "usd"

  const OrderNotFound: string := "Order not found"
  const NotOwner: string := "Unauthorized access to order"
  const AlreadyPaid: string := "Order is already paid"

  /**
   `createPaymentIntent` for the caller `user` (`None` when no user is
   attached). `processor` stands for the payment processor's intent creation.
   */
  function CreatePaymentIntent(db: Db, user: Option<UserId>, orderId: OrderId,
                               processor: IntentRequest -> ProcessorReply): (out: IntentOutcome)
    ensures out.response.status == 200
    // the guards, in their order; none of them contacts the processor
    ensures user.None? ==> out == IntentOutcome(None, Response(200, Crashed(NoUser)))
    ensures user.Some? && orderId !in db.orders ==>
              out == IntentOutcome(None, Response(200, Rejected(OrderNotFound)))
    ensures user.Some? && orderId in db.orders && db.orders[orderId].userId != user.value ==>
              out == IntentOutcome(None, Response(200, Rejected(NotOwner)))
    ensures user.Some? && orderId in db.orders && db.orders[orderId].userId == user.value
            && db.orders[orderId].paymentStatus == Paid ==>
              out == IntentOutcome(None, Response(200, Rejected(AlreadyPaid)))
    // past the guards, exactly one request, priced from the stored order
    ensures out.requested.Some? <==>
              user.Some? && orderId in db.orders && db.orders[orderId].userId == user.value
              && db.orders[orderId].paymentStatus != Paid
    ensures out.requested.Some? ==>
              var o := db.orders[orderId];
              && out.requested.value == IntentRequest(100 * o.amount, Currency, o.id, user.value)
              && match processor(out.requested.value)
                 case IntentCreated(secret) => out.response.body == IntentIssued(secret, o.amount)
                 case ProcessorFailure(m) => out.response.body == Crashed(ProcessorError(m))
  {
    if user.None? then IntentOutcome(None, Response(200, Crashed(NoUser)))
    else if orderId !in db.orders then IntentOutcome(None, Response(200, Rejected(OrderNotFound)))
    else
      var o := db.orders[orderId];
      if o.userId != user.value then IntentOutcome(None, Response(200, Rejected(NotOwner)))
      else if o.paymentStatus == Paid then IntentOutcome(None, Response(200, Rejected(AlreadyPaid)))
      else
        var request := IntentRequest(100 * o.amount, Currency, o.id, user.value);
        match processor(request)
        case IntentCreated(secret) => IntentOutcome(Some(request), Response(200, IntentIssued(secret, o.amount)))
        case ProcessorFailure(m) => IntentOutcome(Some(request), Response(200, Crashed(ProcessorError(m))))
  }

  /**
   The charge and the amount echoed to the client describe the same sum, and
   the metadata names the order asked about, in a well-keyed store.
   */
  lemma ChargeMatchesEcho(db: Db, user: Option<UserId>, orderId: OrderId,
                          processor: IntentRequest -> ProcessorReply)
    requires WellKeyed(db)
    ensures var out := CreatePaymentIntent(db, user, orderId, processor);
            out.response.body.IntentIssued? ==>
              && out.requested.Some?
              && out.requested.value.amountMinor == 100 * out.response.body.amount
              && out.requested.value.orderId == orderId
              && out.requested.value.userId == db.orders[orderId].userId
  {
  }

  /** Whatever the processor answers, a request is made for every unpaid order of the caller and for no other. */
  lemma RequestIndependentOfProcessor(db: Db, user: Option<UserId>, orderId: OrderId,
                                      p1: IntentRequest -> ProcessorReply, p2: IntentRequest -> ProcessorReply)
    ensures CreatePaymentIntent(db, user, orderId, p1).requested == CreatePaymentIntent(db, user, orderId, p2).requested
  {
  }
}

=== FILE: seqs.dfy ===
/**
 Subsequences: what a filter over a list returns. Used to say that the list
 of missing address fields keeps the declared order of the required fields.
 */
module Seqs {

  /** `xs` is `ys` with some elements dropped and the rest kept in order. */
  predicate IsSubsequence<T(==)>(xs: seq<T>, ys: seq<T>)
    decreases |ys|
  {
    if ys == [] then xs == []
    else
      || (xs != [] && xs[0] == ys[0] && IsSubsequence(xs[1..], ys[1..]))
      || IsSubsequence(xs, ys[1..])
  }

  /** No element occurs twice. */
  predicate Distinct<T(==)>(xs: seq<T>)
  {
    forall i, j :: 0 <= i < j < |xs| ==> xs[i] != xs[j]
  }

  lemma {:induction false} SubsequenceElements<T>(xs: seq<T>, ys: seq<T>)
    requires IsSubsequence(xs, ys)
    ensures forall x :: x in xs ==> x in ys
    decreases |ys|
  {
    if ys != [] {
      if xs != [] && xs[0] == ys[0] && IsSubsequence(xs[1..], ys[1..]) {
        SubsequenceElements(xs[1..], ys[1..]);
        assert xs == [xs[0]] + xs[1..];
      } else {
        SubsequenceElements(xs, ys[1..]);
      }
    }
  }

  /**
   Over a list without repetitions, a subsequence is determined by the set of
   its elements: two subsequences with the same members are the same list.
   */
  lemma {:induction false} SubsequenceUnique<T>(xs1: seq<T>, xs2: seq<T>, ys: seq<T>)
    requires Distinct(ys)
    requires IsSubsequence(xs1, ys) && IsSubsequence(xs2, ys)
    requires forall x :: x in xs1 <==> x in xs2
    ensures xs1 == xs2
    decreases |ys|
  {
    if ys != [] {
      var y, rest := ys[0], ys[1..];
      assert Distinct(rest);
      assert y !in rest;
      if y in xs1 {
        HeadIsFirst(xs1, ys);
        HeadIsFirst(xs2, ys);
        SubsequenceElements(xs1[1..], rest);
        SubsequenceElements(xs2[1..], rest);
        assert xs1 == [y] + xs1[1..];
        assert xs2 == [y] + xs2[1..];
        forall x
          ensures x in xs1[1..] <==> x in xs2[1..]
        {
          if x in xs1[1..] {
            assert x in rest && x in xs2;
          }
          if x in xs2[1..] {
            assert x in rest && x in xs1;
          }
        }
        SubsequenceUnique(xs1[1..], xs2[1..], rest);
      } else {
        SubsequenceUnique(xs1, xs2, rest);
      }
    }
  }

  /** When the first element of a repetition-free list is kept, it comes first. */
  lemma HeadIsFirst<T>(xs: seq<T>, ys: seq<T>)
    requires Distinct(ys) && ys != []
    requires IsSubsequence(xs, ys) && ys[0] in xs
    ensures xs[0] == ys[0] && IsSubsequence(xs[1..], ys[1..])
  {
    if !(xs[0] == ys[0] && IsSubsequence(xs[1..], ys[1..])) {
      SubsequenceElements(xs, ys[1..]);
      assert false;
    }
  }
}

=== FILE: text.dfy ===
/**
 String operations of the JavaScript runtime that the handlers use, each with
 an independent characterisation proved about it: `trim`, `toLowerCase`,
 `includes`, `split` on a one-character separator, `join`, and the decimal
 rendering of an integer inside a template literal.
 */
module Text {

  // ---------------------------------------------------------------------------
  // trim
  // ---------------------------------------------------------------------------

  /** The characters `String.prototype.trim` removes: ECMAScript WhiteSpace and LineTerminator. */
  predicate IsSpace(c: char)
  {
    || c == '\t' || c == '\n' || c == '\U{000B}' || c == '\U{000C}' || c == '\r' || c == ' '
    || c == '\U{00A0}' || c == '\U{1680}' || ('\U{2000}' <= c <= '\U{200A}')
    || c == '\U{2028}' || c == '\U{2029}' || c == '\U{202F}' || c == '\U{205F}'
    || c == '\U{3000}' || c == '\U{FEFF}'
  }

  /** Every character is white space (the empty string included). */
  predicate IsBlank(s: string)
  {
    forall i :: 0 <= i < |s| ==> IsSpace(s[i])
  }

  /** Drops leading white space: the result is the suffix left after a blank prefix. */
  function TrimStart(s: string): (r: string)
    ensures |r| <= |s| && r == s[|s| - |r|..]
    ensures IsBlank(s[..|s| - |r|])
    ensures r != [] ==> !IsSpace(r[0])
  {
    if s != [] && IsSpace(s[0]) then TrimStart(s[1..]) else s
  }

  /** Drops trailing white space: the result is the prefix left before a blank suffix. */
  function TrimEnd(s: string): (r: string)
    ensures |r| <= |s| && r == s[..|r|]
    ensures IsBlank(s[|r|..])
    ensures r != [] ==> !IsSpace(r[|r| - 1])
  {
    if s != [] && IsSpace(s[|s| - 1]) then TrimEnd(s[..|s| - 1]) else s
  }

  /** `r` sits in `s` at `k` with only white space before and after it. */
  ghost predicate FramedAt(s: string, r: string, k: int)
  {
    && 0 <= k && k + |r| <= |s| && s[k..k + |r|] == r
    && (forall i :: 0 <= i < k ==> IsSpace(s[i]))
    && (forall i :: k + |r| <= i < |s| ==> IsSpace(s[i]))
  }

  /**
   `s.trim()`: the piece of `s` left once the white space at both ends is
   removed; neither end of the result is white space.
   */
  function Trim(s: string): (r: string)
    ensures |r| <= |s|
    ensures exists k :: FramedAt(s, r, k)
    ensures r != [] ==> !IsSpace(r[0]) && !IsSpace(r[|r| - 1])
  {
    TrimIsFramed(s);
    TrimEnd(TrimStart(s))
  }

  /** Trimming both ends leaves the piece framed by the two blank runs it removed. */
  lemma TrimIsFramed(s: string)
    ensures FramedAt(s, TrimEnd(TrimStart(s)), |s| - |TrimStart(s)|)
  {
    var t := TrimStart(s);
    var r := TrimEnd(t);
    var k := |s| - |t|;
    assert IsBlank(s[..k]);
    forall i | 0 <= i < k
      ensures IsSpace(s[i])
    {
      assert IsSpace(s[..k][i]);
    }
    assert IsBlank(t[|r|..]);
    forall i | k + |r| <= i < |s|
      ensures IsSpace(s[i])
    {
      assert IsSpace(t[|r|..][i - k - |r|]);
      assert s[i] == t[i - k] == t[|r|..][i - k - |r|];
    }
    assert s[k..k + |r|] == t[..|r|];
  }

  /** `s.trim() === ""` holds exactly for the strings made only of white space. */
  lemma TrimEmptyIffBlank(s: string)
    ensures Trim(s) == [] <==> IsBlank(s)
  {
    var t := TrimStart(s);
    assert s[..|s|] == s;
    if Trim(s) == [] {
      assert t[0..] == t;
    }
  }

  // ---------------------------------------------------------------------------
  // toLowerCase
  // ---------------------------------------------------------------------------

  /** The letters of the covered scripts that have a one-character lower-case form. */
  predicate IsUpper(c: char)
  {
    || ('A' <= c <= 'Z')
    || ('\U{00C0}' <= c <= '\U{00DE}' && c != '\U{00D7}')
    || ('\U{0100}' <= c <= '\U{012F}' && c as int % 2 == 0)
    || c == '\U{01A0}' || c == '\U{01AF}'
    || ('\U{1EA0}' <= c <= '\U{1EF9}' && c as int % 2 == 0)
  }

  // The covered upper-case letters and, at the same positions, their lower-case
  // forms as Unicode's case mapping gives them, one pair of tables per script,
  // written in runs of at most ten letters.
  const AsciiUpper: seq<string> := ["ABCDEFGHIJ", "KLMNOPQRST", "UVWXYZ"]
  const AsciiLower: seq<string> := ["abcdefghij", "klmnopqrst", "uvwxyz"]
  const Latin1Upper: seq<string> := ["ÀÁÂÃÄÅÆÇÈÉ", "ÊËÌÍÎÏÐÑÒÓ", "ÔÕÖØÙÚÛÜÝÞ"]
  const Latin1Lower: seq<string> := ["àáâãäåæçèé", "êëìíîïðñòó", "ôõöøùúûüýþ"]
  const ExtendedAUpper: seq<string> := ["ĀĂĄĆĈĊČĎĐĒ", "ĔĖĘĚĜĞĠĢĤĦ", "ĨĪĬĮ"]
  const ExtendedALower: seq<string> := ["āăąćĉċčďđē", "ĕėęěĝğġģĥħ", "ĩīĭį"]
  const HornUpper: seq<string> := ["ƠƯ"]
  const HornLower: seq<string> := ["ơư"]
  const VietnameseAEUpper: seq<string> := ["ẠẢẤẦẨ", "ẪẬẮẰẲ", "ẴẶẸẺẼ", "ẾỀỂỄỆ"]
  const VietnameseAELower: seq<string> := ["ạảấầẩ", "ẫậắằẳ", "ẵặẹẻẽ", "ếềểễệ"]
  const VietnameseIOUYUpper: seq<string> := ["ỈỊỌỎỐ", "ỒỔỖỘỚ", "ỜỞỠỢỤ", "ỦỨỪỬỮ", "ỰỲỴỶỸ"]
  const VietnameseIOUYLower: seq<string> := ["ỉịọỏố", "ồổỗộớ", "ờởỡợụ", "ủứừửữ", "ựỳỵỷỹ"]

  /** Each letter of `upper` lower-cases to the letter at the same position of `lower`. */
  predicate LowersTo(upper: string, lower: string)
  {
    |upper| == |lower| && forall k :: 0 <= k < |upper| ==> LowerChar(upper[k]) == lower[k]
  }

  /**
   Lower-case mapping of one character for ASCII, Latin-1, the Latin
   Extended-A letters up to U+012F, and the Vietnamese letters (including
   the Latin Extended Additional block U+1EA0..U+1EF9).
   */
  function LowerChar(c: char): (r: char)
    ensures IsUpper(c) ==> r != c
    ensures !IsUpper(c) ==> r == c
    ensures !IsUpper(r)
  {
    if 'A' <= c <= 'Z' then (c as int + 32) as char
    else if '\U{00C0}' <= c <= '\U{00DE}' && c != '\U{00D7}' then (c as int + 32) as char
    else if '\U{0100}' <= c <= '\U{012F}' && c as int % 2 == 0 then (c as int + 1) as char
    else if c == '\U{01A0}' || c == '\U{01AF}' then (c as int + 1) as char
    else if '\U{1EA0}' <= c <= '\U{1EF9}' && c as int % 2 == 0 then (c as int + 1) as char
    else c
  }

  /** `s.toLowerCase()` on the covered scripts: character by character, no upper-case letter left. */
  function ToLower(s: string): (r: string)
    ensures |r| == |s|
    ensures forall i :: 0 <= i < |s| ==> r[i] == LowerChar(s[i])
    ensures forall i :: 0 <= i < |r| ==> !IsUpper(r[i])
  {
    seq(|s|, i requires 0 <= i < |s| => LowerChar(s[i]))
  }

  /** Pairings of runs add up to a pairing of the whole tables. */
  lemma {:induction false} LowersToConcat(upper: seq<string>, lower: seq<string>)
    requires |upper| == |lower|
    requires forall i :: 0 <= i < |upper| ==> LowersTo(upper[i], lower[i])
    ensures LowersTo(Join(upper, ""), Join(lower, ""))
    decreases |upper|
  {
    if |upper| >= 2 {
      LowersToConcat(upper[1..], lower[1..]);
      var (u, l) := (Join(upper[1..], ""), Join(lower[1..], ""));
      assert Join(upper, "") == upper[0] + u && Join(lower, "") == lower[0] + l;
      forall k | 0 <= k < |upper[0] + u|
        ensures LowerChar((upper[0] + u)[k]) == (lower[0] + l)[k]
      {
        if k >= |upper[0]| {
          assert (upper[0] + u)[k] == u[k - |upper[0]|];
        }
      }
    }
  }

  // `toLowerCase` maps each covered upper-case letter to its own lower-case form.

  lemma AsciiLowersTo()
    ensures LowersTo(Join(AsciiUpper, ""), Join(AsciiLower, ""))
  {
    LowersToConcat(AsciiUpper, AsciiLower);
  }

  lemma Latin1LowersTo()
    ensures LowersTo(Join(Latin1Upper, ""), Join(Latin1Lower, ""))
  {
    LowersToConcat(Latin1Upper, Latin1Lower);
  }

  lemma ExtendedALowersTo()
    ensures LowersTo(Join(ExtendedAUpper, ""), Join(ExtendedALower, ""))
  {
    LowersToConcat(ExtendedAUpper, ExtendedALower);
  }

  lemma HornLowersTo()
    ensures LowersTo(Join(HornUpper, ""), Join(HornLower, ""))
  {
    LowersToConcat(HornUpper, HornLower);
  }

  lemma VietnameseAELowersTo()
    ensures LowersTo(Join(VietnameseAEUpper, ""), Join(VietnameseAELower, ""))
  {
    LowersToConcat(VietnameseAEUpper, VietnameseAELower);
  }

  lemma VietnameseIOUYLowersTo()
    ensures LowersTo(Join(VietnameseIOUYUpper, ""), Join(VietnameseIOUYLower, ""))
  {
    LowersToConcat(VietnameseIOUYUpper, VietnameseIOUYLower);
  }

  /** Lower-casing twice is lower-casing once. */
  lemma ToLowerIdempotent(s: string)
    ensures ToLower(ToLower(s)) == ToLower(s)
  {
  }

  // ---------------------------------------------------------------------------
  // includes
  // ---------------------------------------------------------------------------

  predicate StartsWith(s: string, prefix: string)
  {
    |prefix| <= |s| && s[..|prefix|] == prefix
  }

  /** `s.includes(t)`, searching from the left one position at a time. */
  function Contains(s: string, t: string): (found: bool)
    ensures t == [] ==> found
    ensures found ==> |t| <= |s|
    decreases |s|
  {
    StartsWith(s, t) || (s != [] && Contains(s[1..], t))
  }

  /** `t` sits in `s` at position `k`. */
  ghost predicate OccursAt(s: string, t: string, k: int)
  {
    0 <= k && k + |t| <= |s| && s[k..k + |t|] == t
  }

  /** The left-to-right search finds `t` exactly when `t` occurs somewhere in `s`. */
  lemma {:induction false} ContainsIffOccurs(s: string, t: string)
    ensures Contains(s, t) <==> exists k :: OccursAt(s, t, k)
    decreases |s|
  {
    if StartsWith(s, t) {
      assert OccursAt(s, t, 0);
    } else if s != [] {
      ContainsIffOccurs(s[1..], t);
      if Contains(s[1..], t) {
        var k :| OccursAt(s[1..], t, k);
        assert s[1..][k..k + |t|] == s[k + 1..k + 1 + |t|];
        assert OccursAt(s, t, k + 1);
      }
      if exists k :: OccursAt(s, t, k) {
        var k :| OccursAt(s, t, k);
        assert k != 0;
        assert s[1..][k - 1..k - 1 + |t|] == s[k..k + |t|];
        assert OccursAt(s[1..], t, k - 1);
      }
    }
  }

  /** A string contains each of its suffixes. */
  lemma {:induction false} ContainsSuffix(s: string, k: nat)
    requires k <= |s|
    ensures Contains(s, s[k..])
  {
    assert OccursAt(s, s[k..], k);
    ContainsIffOccurs(s, s[k..]);
  }

  /** Text found in a part is found in any string built around that part. */
  lemma ContainsInContext(a: string, b: string, c: string, t: string)
    requires Contains(b, t)
    ensures Contains(a + b + c, t)
  {
    ContainsIffOccurs(b, t);
    var k :| OccursAt(b, t, k);
    assert (a + b + c)[|a| + k..|a| + k + |t|] == b[k..k + |t|];
    assert OccursAt(a + b + c, t, |a| + k);
    ContainsIffOccurs(a + b + c, t);
  }

  // ---------------------------------------------------------------------------
  // split and join
  // ---------------------------------------------------------------------------

  /**
   `s.split(sep)` for a one-character separator: the maximal runs of
   non-separator characters, with an empty segment before a leading, between
   two adjacent and after a trailing separator. Never empty: `"".split(" ")`
   is `[""]`.
   */
  function Split(s: string, sep: char): (parts: seq<string>)
    ensures |parts| >= 1
    ensures forall i :: 0 <= i < |parts| ==> sep !in parts[i]
    decreases |s|
  {
    if s == [] then [[]]
    else
      var rest := Split(s[1..], sep);
      if s[0] == sep then [[]] + rest
      else [[s[0]] + rest[0]] + rest[1..]
  }

  /** `parts.join(sep)`; the join of no parts is the empty string. */
  /** The total length of the parts. */
  function Lengths(parts: seq<string>): nat
  {
    if parts == [] then 0 else |parts[0]| + Lengths(parts[1..])
  }

  /**
   `parts.join(sep)`: the parts in order with one separator between each two,
   so the first part starts it and the last part ends it.
   */
  function Join(parts: seq<string>, sep: string): (r: string)
    ensures |r| == Lengths(parts) + (if parts == [] then 0 else (|parts| - 1) * |sep|)
  {
    if |parts| == 0 then []
    else if |parts| == 1 then parts[0]
    else parts[0] + sep + Join(parts[1..], sep)
  }

  /** The first part starts the joined string and the last part ends it. */
  lemma {:induction false} JoinEnds(parts: seq<string>, sep: string)
    requires parts != []
    ensures parts[0] <= Join(parts, sep)
    ensures |Last(parts)| <= |Join(parts, sep)|
    ensures Join(parts, sep)[|Join(parts, sep)| - |Last(parts)|..] == Last(parts)
    decreases |parts|
  {
    if |parts| >= 2 {
      JoinEnds(parts[1..], sep);
      var rest := Join(parts[1..], sep);
      assert Last(parts[1..]) == Last(parts);
      assert Join(parts, sep) == (parts[0] + sep) + rest;
    }
  }

  function Last<T>(xs: seq<T>): T
    requires xs != []
  {
    xs[|xs| - 1]
  }

  /** Joining the segments with the separator gives back the original string. */
  lemma {:induction false} JoinSplit(s: string, sep: char)
    ensures Join(Split(s, sep), [sep]) == s
    decreases |s|
  {
    if s != [] {
      var rest := Split(s[1..], sep);
      JoinSplit(s[1..], sep);
      if s[0] == sep {
        assert ([[]] + rest)[1..] == rest;
        assert s == [sep] + s[1..];
      } else {
        var parts := [[s[0]] + rest[0]] + rest[1..];
        assert parts[1..] == rest[1..];
        if |rest| == 1 {
          assert s == [s[0]] + rest[0];
        } else {
          assert Join(rest, [sep]) == rest[0] + [sep] + Join(rest[1..], [sep]);
          assert s == [s[0]] + rest[0] + [sep] + Join(rest[1..], [sep]);
        }
      }
    }
  }

  /** Splitting a string that begins with a separator-free word `w`. */
  lemma {:induction false} SplitAfterWord(w: string, tail: string, sep: char)
    requires sep !in w
    ensures Split(w + tail, sep) == [w + Split(tail, sep)[0]] + Split(tail, sep)[1..]
    decreases |w|
  {
    if w != [] {
      assert (w + tail)[1..] == w[1..] + tail;
      assert w[0] in w;
      SplitAfterWord(w[1..], tail, sep);
      assert [w[0]] + (w[1..] + Split(tail, sep)[0]) == w + Split(tail, sep)[0];
    } else {
      assert w + tail == tail;
      assert w + Split(tail, sep)[0] == Split(tail, sep)[0];
      assert Split(tail, sep) == [Split(tail, sep)[0]] + Split(tail, sep)[1..];
    }
  }

  /** Every part can be found in the joined string. */
  lemma {:induction false} JoinContainsParts(parts: seq<string>, sep: string, i: nat)
    requires i < |parts|
    ensures Contains(Join(parts, sep), parts[i])
    decreases |parts|
  {
    ContainsSuffix(parts[i], 0);
    if |parts| == 1 {
    } else if i == 0 {
      ContainsInContext([], parts[0], sep + Join(parts[1..], sep), parts[0]);
      assert [] + parts[0] + (sep + Join(parts[1..], sep)) == Join(parts, sep);
    } else {
      JoinContainsParts(parts[1..], sep, i - 1);
      ContainsInContext(parts[0] + sep, Join(parts[1..], sep), [], parts[i]);
      assert parts[0] + sep + Join(parts[1..], sep) + [] == Join(parts, sep);
    }
  }

  /** Splitting separator-free segments joined by the separator gives back the segments. */
  lemma {:induction false} SplitJoin(parts: seq<string>, sep: char)
    requires |parts| >= 1
    requires forall i :: 0 <= i < |parts| ==> sep !in parts[i]
    ensures Split(Join(parts, [sep]), sep) == parts
    decreases |parts|
  {
    if |parts| == 1 {
      SplitAfterWord(parts[0], [], sep);
      assert parts[0] + [] == parts[0];
    } else {
      var more := parts[1..];
      SplitJoin(more, sep);
      var tail := [sep] + Join(more, [sep]);
      assert Join(parts, [sep]) == parts[0] + tail;
      assert tail[1..] == Join(more, [sep]);
      assert Split(tail, sep) == [[]] + more;
      SplitAfterWord(parts[0], tail, sep);
      assert parts[0] + [] == parts[0];
      assert parts == [parts[0]] + more;
    }
  }

  /**
   The last segment of a split is the separator-free suffix of the string:
   either the whole string, or what follows the last separator.
   */
  lemma {:induction false} LastSegment(s: string, sep: char)
    ensures var w := Last(Split(s, sep));
            && |w| <= |s| && s[|s| - |w|..] == w
            && (|w| < |s| ==> s[|s| - |w| - 1] == sep)
            && (|Split(s, sep)| >= 2 ==> |w| < |s|)
    decreases |s|
  {
    if s != [] {
      var rest := Split(s[1..], sep);
      LastSegment(s[1..], sep);
      if s[0] == sep {
        assert Last(Split(s, sep)) == Last(rest);
      } else if |rest| == 1 {
        JoinSplit(s[1..], sep);
        assert rest[0] == s[1..];
        assert Last(Split(s, sep)) == [s[0]] + s[1..] == s;
      } else {
        assert Last(Split(s, sep)) == Last(rest);
      }
    }
  }

  // ---------------------------------------------------------------------------
  // decimal rendering
  // ---------------------------------------------------------------------------

  predicate IsDigit(c: char)
  {
    '0' <= c <= '9'
  }

  function DigitChar(d: int): (c: char)
    requires 0 <= d < 10
    ensures IsDigit(c) && c as int - '0' as int == d
  {
    ('0' as int + d) as char
  }

  /** Decimal digits of `n`, most significant first. */
  function NatToString(n: nat): (r: string)
    ensures |r| >= 1
    ensures forall i :: 0 <= i < |r| ==> IsDigit(r[i])
    // no leading zero: only 0 itself is written with a first digit 0
    ensures r[0] == '0' ==> n == 0
  {
    if n < 10 then [DigitChar(n)] else NatToString(n / 10) + [DigitChar(n % 10)]
  }

  /** `${n}` for an integer-valued number: an optional minus sign, then the digits. */
  function IntToString(n: int): (r: string)
    ensures |r| >= 1
    ensures r[0] == '-' <==> n < 0
    ensures forall i :: 0 <= i < |r| ==> IsDigit(r[i]) || (i == 0 && r[i] == '-')
    // the digits after the sign have no leading zero unless the value is 0
    ensures var d := if n < 0 then r[1..] else r; d != [] && (d[0] == '0' ==> n == 0)
  {
    if n < 0 then "-" + NatToString(-n) else NatToString(n)
  }

  /** The value of a string of decimal digits. */
  function DigitsValue(s: string): nat
    requires forall i :: 0 <= i < |s| ==> IsDigit(s[i])
  {
    if s == [] then 0 else DigitsValue(s[..|s| - 1]) * 10 + DigitValue(s[|s| - 1])
  }

  function DigitValue(c: char): nat
    requires IsDigit(c)
  {
    c as int - '0' as int
  }

  /** Reading the digits back gives the number. */
  lemma {:induction false} NatToStringRoundTrip(n: nat)
    ensures DigitsValue(NatToString(n)) == n
  {
    if n >= 10 {
      NatToStringRoundTrip(n / 10);
      var r := NatToString(n);
      assert r[..|r| - 1] == NatToString(n / 10);
    }
  }

  /** Reading a rendered integer back, sign included, gives the integer. */
  lemma IntToStringRoundTrip(n: int)
    ensures var r := IntToString(n);
            (if r[0] == '-' then -(DigitsValue(r[1..]) as int) else DigitsValue(r)) == n
  {
    NatToStringRoundTrip(if n < 0 then -n else n);
    if n < 0 {
      assert IntToString(n)[1..] == NatToString(-n);
    }
  }
}

=== FILE: webhook.dfy ===
/**
 The processor webhook (`handleStripeWebhook`): a signature check, then an
 unconditional overwrite of the payment fields of the order named in the
 event's metadata. Also how webhook deliveries combine with each other and
 with the client-side confirmation.
 */
module Webhook {
  import opened JsValues
  import opened Text
  import opened Orders
  import ConfirmPayment

  const SucceededKind: string := "payment_intent.succeeded"
  const FailedKind: string := "payment_intent.payment_failed"
  const ErrorPrefix: string := "Webhook Error: "

  /** A processor event: its type and the `orderId` of its intent's metadata (if any). */
  datatype Event = Event(kind: string, orderId: Option<OrderId>)

  /** The result of checking a payload against its signature header. */
  datatype Verification = Verified(event: Event) | Unverified(reason: string)

  /** An update document: the payment status to write and, optionally, the order status. */
  datatype Patch = Patch(paymentStatus: PaymentStatus, status: Option<OrderStatus>)

  function ApplyPatch(o: Order, p: Patch): Order
  {
    o.(paymentStatus := p.paymentStatus, status := if p.status.Some? then p.status.value else o.status)
  }

  /** `findByIdAndUpdate`: patches the order with that id, and does nothing when there is none. */
  function FindByIdAndUpdate(orders: map<OrderId, Order>, id: Option<OrderId>, p: Patch): (r: map<OrderId, Order>)
    ensures r.Keys == orders.Keys
    ensures forall k :: k in orders && id != Some(k) ==> r[k] == orders[k]
    // the matching order gets the patch's payment status, and its order status when the patch has one
    ensures id.Some? && id.value in orders ==>
              var (before, after) := (orders[id.value], r[id.value]);
              && after.paymentStatus == p.paymentStatus
              && after.status == (if p.status.Some? then p.status.value else before.status)
              && after.(paymentStatus := before.paymentStatus, status := before.status) == before
  {
    if id.Some? && id.value in orders then orders[id.value := ApplyPatch(orders[id.value], p)] else orders
  }

  /** The payment status an event writes, if its kind is one the handler acts on. */
  function Effect(e: Event): Option<PaymentStatus>
  {
    if e.kind == SucceededKind then Some(Paid)
    else if e.kind == FailedKind then Some(PaymentFailed)
    else None
  }

  /** What a verified event does to the orders collection. */
  function ApplyEvent(orders: map<OrderId, Order>, e: Event): (r: map<OrderId, Order>)
    ensures r.Keys == orders.Keys
    // only the order named in the metadata can change, and only its payment fields
    ensures forall id :: id in orders && e.orderId != Some(id) ==> r[id] == orders[id]
    ensures forall id :: id in orders ==>
              r[id] == orders[id].(paymentStatus := r[id].paymentStatus, status := r[id].status)
    // success: paid and confirmed
    ensures e.kind == SucceededKind && e.orderId.Some? && e.orderId.value in orders ==>
              r[e.orderId.value].paymentStatus == Paid && r[e.orderId.value].status == Confirmed
    // failure: failed, whatever it was before; the order status is left alone
    ensures e.kind == FailedKind && e.orderId.Some? && e.orderId.value in orders ==>
              r[e.orderId.value].paymentStatus == PaymentFailed
              && r[e.orderId.value].status == orders[e.orderId.value].status
    // any other kind: nothing
    ensures Effect(e).None? ==> r == orders
  {
    if e.kind == SucceededKind then FindByIdAndUpdate(orders, e.orderId, Patch(Paid, Some(Confirmed)))
    else if e.kind == FailedKind then FindByIdAndUpdate(orders, e.orderId, Patch(PaymentFailed, None))
    else orders
  }

  /**
   `handleStripeWebhook`. `verify` stands for the processor library's
   signature check over the raw body, the signature header and the shared
   secret; it either yields the event or says why it refused.
   */
  function HandleWebhook(db: Db, body: string, signature: Option<string>,
                         verify: (string, Option<string>) -> Verification): (out: Outcome)
    // a bad signature is answered with 400 and touches nothing
    ensures verify(body, signature).Unverified? ==>
              out == Outcome(db, Response(400, WebhookError(ErrorPrefix + verify(body, signature).reason)))
    // every verified event is acknowledged, whatever its kind or target
    ensures verify(body, signature).Verified? ==>
              && out.response == Response(200, Received)
              && out.db == db.(orders := ApplyEvent(db.orders, verify(body, signature).event))
    ensures out.db.userOrders == db.userOrders
  {
    match verify(body, signature)
    case Unverified(reason) => Outcome(db, Response(400, WebhookError(ErrorPrefix + reason)))
    case Verified(e) => Outcome(db.(orders := ApplyEvent(db.orders, e)), Response(200, Received))
  }

  /** Webhook handling keeps every stored order under its own id. */
  lemma HandleWebhookWellKeyed(db: Db, body: string, signature: Option<string>,
                               verify: (string, Option<string>) -> Verification)
    requires WellKeyed(db)
    ensures WellKeyed(HandleWebhook(db, body, signature, verify).db)
  {
  }

  /** Applying the same event twice gives the store that applying it once gives. */
  lemma ApplyEventIdempotent(orders: map<OrderId, Order>, e: Event)
    ensures ApplyEvent(ApplyEvent(orders, e), e) == ApplyEvent(orders, e)
  {
  }

  /** A re-delivered webhook changes nothing and is acknowledged the same way. */
  lemma RedeliveryIdempotent(db: Db, body: string, signature: Option<string>,
                             verify: (string, Option<string>) -> Verification)
    ensures var once := HandleWebhook(db, body, signature, verify);
            HandleWebhook(once.db, body, signature, verify) == once
  {
    if verify(body, signature).Verified? {
      ApplyEventIdempotent(db.orders, verify(body, signature).event);
    }
  }

  /**
   Paid is not absorbing: a failure event after a success event leaves the
   order failed but still confirmed.
   */
  lemma FailureAfterSuccessOverwrites(orders: map<OrderId, Order>, id: OrderId)
    requires id in orders
    ensures var after := ApplyEvent(ApplyEvent(orders, Event(SucceededKind, Some(id))), Event(FailedKind, Some(id)));
            after[id].paymentStatus == PaymentFailed && after[id].status == Confirmed
  {
  }

  // ---------------------------------------------------------------------------
  // sequences of deliveries
  // ---------------------------------------------------------------------------

  /** Verified events applied in delivery order. */
  function ApplyAll(orders: map<OrderId, Order>, es: seq<Event>): map<OrderId, Order>
    decreases |es|
  {
    if es == [] then orders else ApplyAll(ApplyEvent(orders, es[0]), es[1..])
  }

  /** The payment status one event leaves on order `id`, given the one before. */
  function Step(e: Event, id: OrderId, before: PaymentStatus): PaymentStatus
  {
    if e.orderId == Some(id) && Effect(e).Some? then Effect(e).value else before
  }

  /** The payment status written by the last event that acts on `id`, or `init` if none does. */
  function LastWritten(es: seq<Event>, id: OrderId, init: PaymentStatus): PaymentStatus
    decreases |es|
  {
    if es == [] then init else Step(Last(es), id, LastWritten(es[..|es| - 1], id, init))
  }

  lemma {:induction false} LastWrittenCons(e: Event, es: seq<Event>, id: OrderId, init: PaymentStatus)
    ensures LastWritten([e] + es, id, init) == LastWritten(es, id, Step(e, id, init))
    decreases |es|
  {
    if es != [] {
      assert ([e] + es)[..|[e] + es| - 1] == [e] + es[..|es| - 1];
      LastWrittenCons(e, es[..|es| - 1], id, init);
    }
  }

  predicate SucceededFor(e: Event, id: OrderId)
  {
    e.kind == SucceededKind && e.orderId == Some(id)
  }

  /**
   Last writer wins: after any sequence of verified events, an order's payment
   status is the one written by the last event that acts on it (its original
   status if none does), and its order status is confirmed exactly when some
   success event named it or it was confirmed before.
   */
  lemma {:induction false} LastWriterWins(orders: map<OrderId, Order>, es: seq<Event>, id: OrderId)
    requires id in orders
    ensures ApplyAll(orders, es).Keys == orders.Keys
    ensures ApplyAll(orders, es)[id].paymentStatus == LastWritten(es, id, orders[id].paymentStatus)
    ensures ApplyAll(orders, es)[id].status ==
              if exists i :: 0 <= i < |es| && SucceededFor(es[i], id) then Confirmed else orders[id].status
    decreases |es|
  {
    if es != [] {
      var next := ApplyEvent(orders, es[0]);
      LastWriterWins(next, es[1..], id);
      assert next[id].paymentStatus == Step(es[0], id, orders[id].paymentStatus);
      assert es == [es[0]] + es[1..];
      LastWrittenCons(es[0], es[1..], id, orders[id].paymentStatus);
      if SucceededFor(es[0], id) {
        assert next[id].status == Confirmed;
      } else {
        assert next[id].status == orders[id].status;
        if exists i :: 0 <= i < |es| && SucceededFor(es[i], id) {
          var i :| 0 <= i < |es| && SucceededFor(es[i], id);
          assert SucceededFor(es[1..][i - 1], id);
        }
      }
    }
  }

  // ---------------------------------------------------------------------------
  // the two confirmation paths together
  // ---------------------------------------------------------------------------

  /**
   The client confirmation and the success webhook write the same two fields
   with the same values, so for the owner the store ends the same whichever
   arrives first, and the later one changes nothing.
   */
  lemma ConfirmAndWebhookConverge(db: Db, user: UserId, req: ConfirmPayment.ConfirmRequest,
                                  mail: ConfirmPayment.MailResult)
    requires req.orderId in db.orders && db.orders[req.orderId].userId == user && user != []
    ensures var e := Event(SucceededKind, Some(req.orderId));
            var confirmed := ConfirmPayment.ConfirmPayment(db, Some(user), req, mail).db;
            var hooked := db.(orders := ApplyEvent(db.orders, e));
            && confirmed == hooked
            && ConfirmPayment.ConfirmPayment(hooked, Some(user), req, mail).db == hooked
            && confirmed.(orders := ApplyEvent(confirmed.orders, e)) == confirmed
  {
  }
}
